=== FILE: README.md ===
# VR game catalog: editor and browser logic in Dafny

The repository has two React front ends over one catalog of VR games.

- **The editor** (`src/App.tsx`) lists titles by genre, with a search box. It opens an edit dialog per title. The dialog saves a record to the persistence service.
  - Saving checks that the name is not taken by another record.
  - It then updates the in-memory list by identity, or appends a new record.
  - The dialog shows the `control` and `violation` lists as fixed checkboxes plus a free-text "other" field. It splits the stored list when it opens and merges it back when it saves.
- **The browser** (`client/src/App.tsx`) has an intro screen and a grid per section. The sections are the VR zone and the VR arena.
  - The grid has a name search and, in the zone section only, a tag filter.
  - A detail page has a wrap-around screenshot carousel.

This project models the pure logic under the JSX as datatypes and pure functions. It proves the properties that logic promises.

Modules:

- `Catalog`: `Option`, the Russian-language, age and difficulty enumerations.
- `Seqs`: the order-preserving `filter` of JavaScript arrays, the subsequence relation, and the append-or-remove checkbox toggle.
- `Text`: ECMAScript `trim`, `split` on one character, `join`, and `includes` as `Contains`.
- `Order`: the string order of `sort()` and the sorted distinct list that `[...new Set(xs)].sort()` builds.
- `Editor`: the editor's record, lookup, duplicate check, save and genre search.
- `GameModal`: the edit dialog's split, toggle and merge.
- `Browser`: the browser's screen state, its filters, carousel and navigation, and the invariant every reachable state keeps.

`toLowerCase` is a parameter `lower: string -> string` of every search function. Each filter property therefore holds for any case mapping.

Data arriving from the network is an argument:

- the loaded lists are arguments of `LoadZona` and `LoadArena`;
- the saved record the server answers with is the `response` argument of `HandleSave`, with `None` for a request that threw.

## Model

| member | source | states |
|---|---|---|
| Editor.GetGameData | src/App.tsx:95-113 | The record carries the requested name. It is the first saved record with that exact name when there is one. Otherwise it is the default: Russian absent, adult audience, difficulty 1, empty lists and strings, no id. |
| Editor.IsDuplicateName | src/App.tsx:126-128 | True exactly when some record has the same name (case-sensitive) and a different identity. An absent identity differs from every present one. |
| Editor.OwnNameIsNotDuplicate | src/App.tsx:126-128 | With unique names, a record checked under its own identity and unchanged name is never a duplicate. |
| Editor.ReplaceById | src/App.tsx:144 | Same length. Each record with the saved identity is replaced by the saved record. Every other record is kept. |
| Editor.SaveRequest | src/App.tsx:137-153 | An update addressed by the identity exactly when the identity is a non-empty string, a create otherwise. The body is the draft. |
| Editor.HandleSave | src/App.tsx:130-156 | Status is DuplicateName iff the name clashes, and then the list is untouched. A failed request leaves the list untouched. A saved update keeps the length and replaces by identity. A saved create appends the answer. |
| Editor.SaveKeepsNamesUnique | src/App.tsx:125-156 | Unique names and distinct non-empty identities survive a save. This assumes the server echoes the name, an update keeps its identity, and a create gets a fresh one. |
| Editor.FilteredGames | src/App.tsx:158-166 | A subsequence of the genre list. A title is kept iff it is in that list and the lowered query occurs in the lowered title, with its count in the list. An empty query keeps the list. An unknown genre gives nothing. No genre and an empty query give all titles. |
| GameModal.OtherValues | src/App.tsx:265 | The stored values that are not fixed options, in stored order: a subsequence holding each such value as often as it is stored, and no fixed option. |
| GameModal.NoOthersWhenAllFixed | src/App.tsx:265 | A list of fixed options only leaves no other values. |
| GameModal.SplitOnLoad | src/App.tsx:263-277 | Ticked options are a subsequence of the stored list. They hold each fixed value as often as it is stored, and nothing else. The text is the other values joined with ", ". The "other" box is ticked iff that text is non-empty. It is unticked when every value is fixed, and ticked when some non-empty value is not. |
| GameModal.OpenDraft | src/App.tsx:237-277 | Opening a record splits `control` and `violation` against their fixed options. Every other dialog field starts from the record. |
| GameModal.ToggleOption | src/App.tsx:329-331 | Ticking appends the option. Unticking removes every occurrence and keeps the other options with their counts and order. The "other" box and text are untouched. |
| GameModal.Segments | src/App.tsx:282 | The pieces appended from the text: each is non-empty, trimmed and comma-free. They are the non-empty trimmed comma pieces of the trimmed text, in order and with their counts. |
| GameModal.MergeOnSave | src/App.tsx:279-288 | The ticked options come first. The text's pieces follow only when the box is ticked and the text is not blank. Nothing blank is ever appended. |
| GameModal.SaveClick | src/App.tsx:279-305 | Identity and name come from the opened record. `control` and `violation` are the merges of their fields. Every other field comes from the dialog. Both lists start with the ticked options and continue with non-blank trimmed pieces only. |
| GameModal.SplitMergeRoundTrip | src/App.tsx:264-282 | Suppose the other values are non-empty, trimmed and comma-free. Then split followed by merge gives the fixed values followed by the others, each in stored order. The result is a permutation of the stored list. |
| GameModal.SegmentsOfJoin | src/App.tsx:265-282 | Non-empty, trimmed, comma-free values shown joined with ", " come back as the saved pieces. |
| GameModal.SplitMergeIdentity | src/App.tsx:264-282 | When every fixed value is stored before every other value, split then merge returns the stored list itself. |
| GameModal.OpenSaveRoundTrip | src/App.tsx:263-305 | Suppose the values of `control` and `violation` that are not fixed options are non-empty, trimmed and comma-free. Then opening a record and saving it untouched only regroups those two lists, fixed options first. Each list is a permutation of the original. |
| Seqs.Filter | client/src/App.tsx:80-88 | The result is an order-preserving subsequence of the input. It holds each element that passes the test as often as the input does, and no other. |
| Seqs.FilterPartition | src/App.tsx:264-265 | The kept and dropped parts of a filter together are a permutation of the input. |
| Seqs.FilterPartitionOrdered | src/App.tsx:264-265 | If every passing element comes before every failing one, the kept part followed by the dropped part is the input itself. |
| Seqs.Toggle | client/src/App.tsx:92-95 | Ticking appends the element. Unticking removes every occurrence and keeps the other elements' order and counts. The element is present afterwards iff the box was ticked. |
| Text.Trim | src/App.tsx:281-282 | The result is a slice of the input between a blank prefix and a blank suffix. It has no surrounding whitespace. It is empty iff the input is blank. It equals the input iff the input was already trimmed. |
| Text.Split | src/App.tsx:282 | At least one piece. No piece contains the separator. A string without the separator gives itself. |
| Text.JoinSplit | src/App.tsx:282 | Joining the pieces of a split with the separator gives back the string. |
| Text.SplitJoin | src/App.tsx:265 | Splitting a separator-free join on its separator gives back the list. |
| Text.TrimAllSplitJoinCommaSpace | src/App.tsx:265-282 | Non-empty, trimmed, comma-free values joined with ", ", then cut at commas and trimmed, give back the values. |
| Text.ContainsIff | src/App.tsx:162 | `Contains` holds iff the pattern occurs at some position. |
| Order.LexStrictTotalOrder | client/src/App.tsx:74 | The string order of `sort()` is irreflexive, transitive and total on distinct strings. |
| Order.SortedDistinct | client/src/App.tsx:74 | Strictly ascending, and it holds exactly the input's elements. |
| Order.SortedUnique | client/src/App.tsx:74 | Two strictly ascending lists with the same elements are equal. |
| Browser.AllTags | client/src/App.tsx:73 | A tag is listed iff some game carries it. |
| Browser.UniqueTags | client/src/App.tsx:72-75 | Strictly ascending and free of duplicates. Its elements are exactly the zone games' tags. |
| Browser.UniqueTagsCanonical | client/src/App.tsx:72-75 | The tag list is the only ascending duplicate-free list of the zone tags. |
| Browser.UniqueTagsExample | client/src/App.tsx:72-75 | Zone tags "b","a" and "a","c" with an arena tag "z" give exactly "a","b","c". |
| Browser.FilteredGames | client/src/App.tsx:77-90 | An order-preserving subsequence of the section's games. A game of the section is shown iff it matches the query when the query is non-empty, and, in the zone section with tags selected, carries every selected tag. Shown games keep their counts. No query and no active tag filter shows the section. |
| Browser.TagFilterIdentity | client/src/App.tsx:84-89 | In the arena section or with no tag selected, the grid is the name search alone. |
| Browser.ExactlyOneView | client/src/App.tsx:140-184 | Exactly one of intro, grid and detail page is shown. In a reachable state the detail page implies a section. |
| Browser.NextScreenshot | client/src/App.tsx:102-105 | A no-op without a game. Otherwise only the index changes: it stays below the count, steps forward, and wraps from the last screenshot to 0. |
| Browser.PrevScreenshot | client/src/App.tsx:107-112 | A no-op without a game. Otherwise only the index changes: it steps back, and goes from 0 to the last screenshot, staying in range. |
| Browser.ShowScreenshot | client/src/App.tsx:218-223 | A dot sets the index to its position and keeps the invariant. |
| Browser.PrevNextInverse | client/src/App.tsx:102-112 | On a valid index, back undoes forward and forward undoes back. |
| Browser.NextTimesIndex | client/src/App.tsx:102-105 | After k presses forward the index is the start plus k, modulo the count. |
| Browser.NextCycle | client/src/App.tsx:102-105 | Pressing forward once per screenshot returns to the starting state. |
| Browser.HandleSectionChange | client/src/App.tsx:115-121 | Afterwards the grid of the chosen section shows with empty search, no tags, no game and index 0. Every game of the section is listed. The loaded lists are kept. |
| Browser.CloseDetails | client/src/App.tsx:97-100 | The game is closed and the index reset. Section, lists, search and tags are unchanged. The grid shows again. |
| Browser.SelectGame | client/src/App.tsx:175 | A card opens its game without changing the grid state. In a reachable state the game opens at screenshot 0. |
| Browser.SetSearch | client/src/App.tsx:153 | Only the query changes. The invariant is kept. |
| Browser.HandleTagChange | client/src/App.tsx:92-95 | Ticking appends the tag. Unticking removes every occurrence and keeps the rest in order. Nothing else changes. |
| Browser.LoadZona | client/src/App.tsx:49-64 | Only the zone list changes. The invariant is kept. |
| Browser.LoadArena | client/src/App.tsx:66-69 | Only the arena list changes. The invariant is kept. |
| Browser.Enabled | client/src/App.tsx:130-225 | Which events each screen offers. Loads and section buttons are always offered, and they are all the intro offers. The grid offers the search box and the cards, and in the zone section also the tag boxes. These need the grid. A detail page offers Close. With screenshots it also offers the arrows and one dot per screenshot. Arrows and dots need such a page, and Close is offered iff a game is open. |
| Browser.StepKeepsInv | client/src/App.tsx:92-121 | Every event enabled on screen keeps the invariant. The invariant is: index 0 with no game open, a game only inside a section, and, with a game open, the index is 0 or below the screenshot count. |
| Browser.ReachableInv | client/src/App.tsx:40-46 | Every state reachable by enabled events from a state satisfying the invariant satisfies it. This includes the first render. |
| Browser.OpenStartsAtFirstScreenshot | client/src/App.tsx:175 | In every state reachable from the first render, opening a game from the grid starts at screenshot 0. |

## Left out

- Network access, JSON parsing, `async` ordering and error logging. The loaded lists and the server's answer are arguments.
  - The two zone loads in the browser race each other. They are two `LoadZona` events that may come in either order.
  - `data.games || []` is reduced to the list it yields.
- Rendering and CSS, `alert`, `window.location.reload`, and the links to the other deployment.
- The editor's `openModal` and `closeModal` setters.
  - `HandleSave` reports `Saved` where the source calls `closeModal`.
  - Its other outcomes leave the dialog open.
- The `localeCompare` sort of the editor's full title list. It depends on the locale, so `Editor.FilteredGames` takes that list as an argument.
- Unicode case mapping. `toLowerCase` is the `lower` parameter.
- Order.SortedDistinct: orders strings by code point, while `sort()` compares UTF-16 code units. The two orders differ only between characters above U+FFFF and characters from U+E000 to U+FFFF.
- Browser.UniqueTags: inherits the code-point order above.
- Browser.NextScreenshot and Browser.PrevScreenshot: require at least one screenshot when a game is open. The arrows are rendered only in that case (`client/src/App.tsx:206`). With none, the source's index would become `NaN` or -1.
- Editor.HandleSave: a request that fails (`None`) leaves everything unchanged, which is what an exception before `setGamesData` does. An error body that parses as JSON is not distinguished from a saved record.
- Editor.GenreList: a genre name equal to a property of `Object.prototype` (such as `constructor`) finds nothing in the model. In JavaScript it would find the inherited property.
- The screenshot index is a natural number. Every value the source can produce from a reachable state is non-negative.

=== FILE: browser.dfy ===
/**
 The catalog browser: an intro screen, a grid of the chosen section's games
 with a name search and (in the zone section) a tag filter, and a detail page
 with a screenshot carousel. The whole screen is one immutable `State`; every
 user action and every data load is a function from state to state.
 */
module Browser {
  import opened Catalog
  import opened Seqs
  import opened Text
  import opened Order

  /** The two sections, the VR zone and the VR arena. */
  datatype Section = Zona | Arena

  /** A sub-mode of an arena game. */
  datatype Submode = Submode(name: string, description: string, header: string)

  /** A catalog entry: zone games carry tags; arena games add a list of sub-modes. */
  datatype Game =
    | ZonaGame(
        name: string, russian: Russian, control: seq<string>, violation: seq<string>,
        age: Age, difficulty: Difficulty, tags: seq<string>, screenshots: seq<string>,
        description: string, trailer: string, cardHeader: string, mobileCardHeader: string)
    | ArenaGame(
        name: string, russian: Russian, control: seq<string>, violation: seq<string>,
        age: Age, difficulty: Difficulty, tags: seq<string>, screenshots: seq<string>,
        description: string, trailer: string, cardHeader: string, mobileCardHeader: string,
        submodes: seq<Submode>)

  /** Everything the browser screen remembers. */
  datatype State = State(
    section: Option<Section>,
    zonaGames: seq<Game>,
    arenaGames: seq<Game>,
    searchQuery: string,
    selectedTags: seq<string>,
    selectedGame: Option<Game>,
    screenshotIndex: nat)

  /** The state on first render: no section, no data, empty filters, nothing selected. */
  const Initial := State(None, [], [], "", [], None, 0)

  // ---------------------------------------------------------------------------
  // Tags

  /** Every tag of every game, with repetitions, game by game. */
  function AllTags(games: seq<Game>): (r: seq<string>)
    ensures forall t :: t in r <==> exists i :: 0 <= i < |games| && t in games[i].tags
  {
    if |games| == 0 then []
    else
      var rest := AllTags(games[1..]);
      assert forall i :: 1 <= i < |games| ==> games[i] == games[1..][i - 1];
      assert forall t :: t in rest ==> exists i :: 0 <= i < |games| && t in games[i].tags by {
        forall t | t in rest
          ensures exists i :: 0 <= i < |games| && t in games[i].tags
        {
          var k :| 0 <= k < |games[1..]| && t in games[1..][k].tags;
          assert games[k + 1] == games[1..][k];
        }
      }
      games[0].tags + rest
  }

  /**
   The tag checkboxes: the distinct tags of the zone games in ascending
   order. Arena games do not contribute.
   */
  function UniqueTags(st: State): (r: seq<string>)
    ensures StrictlySorted(r)
    ensures forall i, j :: 0 <= i < j < |r| ==> r[i] != r[j]
    ensures forall t :: t in r <==> exists i :: 0 <= i < |st.zonaGames| && t in st.zonaGames[i].tags
  {
    var r := SortedDistinct(AllTags(st.zonaGames));
    StrictlySortedDistinct(r);
    r
  }

  /**
   The tag list is the only ascending duplicate-free list of the zone tags:
   any such list equals it.
   */
  lemma UniqueTagsCanonical(st: State, tags: seq<string>)
    requires StrictlySorted(tags)
    requires forall t :: t in tags <==> exists i :: 0 <= i < |st.zonaGames| && t in st.zonaGames[i].tags
    ensures tags == UniqueTags(st)
  {
    SortedUnique(tags, UniqueTags(st));
  }

  /** A zone game with the given name and tags and every other field left empty. */
  function TaggedZonaGame(name: string, tags: seq<string>): (g: Game)
    ensures g.ZonaGame? && g.name == name && g.tags == tags
  {
    ZonaGame(name, Absent, [], [], Adults, 1, tags, [], "", "", "", "")
  }

  /**
   Two zone games tagged "b", "a" and "a", "c", and an arena game tagged "z":
   the checkboxes read "a", "b", "c", each once and without the arena tag.
   */
  lemma UniqueTagsExample()
    ensures UniqueTags(State(Some(Zona),
      [TaggedZonaGame("x", ["b", "a"]), TaggedZonaGame("y", ["a", "c"])],
      [ArenaGame("w", Absent, [], [], Adults, 1, ["z"], [], "", "", "", "", [])],
      "", [], None, 0)) == ["a", "b", "c"]
  {
    var st := State(Some(Zona),
      [TaggedZonaGame("x", ["b", "a"]), TaggedZonaGame("y", ["a", "c"])],
      [ArenaGame("w", Absent, [], [], Adults, 1, ["z"], [], "", "", "", "", [])],
      "", [], None, 0);
    var tags: seq<string> := ["a", "b", "c"];
    assert LexLess("a", "b") && LexLess("b", "c") && LexLess("a", "c");
    assert st.zonaGames[0].tags == ["b", "a"] && st.zonaGames[1].tags == ["a", "c"];
    forall t
      ensures t in tags <==> exists i :: 0 <= i < |st.zonaGames| && t in st.zonaGames[i].tags
    {
      if t in tags {
        if t == "c" {
          assert t in st.zonaGames[1].tags;
        } else {
          assert t in st.zonaGames[0].tags;
        }
      }
    }
    UniqueTagsCanonical(st, tags);
  }

  // ---------------------------------------------------------------------------
  // Filtering

  /** The games of the current section; without a section the arena list is used. */
  function SectionGames(st: State): seq<Game>
  {
    if st.section == Some(Zona) then st.zonaGames else st.arenaGames
  }

  /** The name test: the lower-cased name contains the lower-cased query. */
  predicate NameMatches(g: Game, query: string, lower: string -> string)
  {
    Contains(lower(g.name), lower(query))
  }

  /** The tag test: the game carries every selected tag. */
  predicate HasAllTags(g: Game, tags: seq<string>)
  {
    forall t :: t in tags ==> t in g.tags
  }

  /** Whether the tag filter applies: zone section with at least one tag selected. */
  predicate TagFilterActive(st: State)
  {
    st.section == Some(Zona) && |st.selectedTags| > 0
  }

  /** The test a game of the section must pass to appear in the grid. */
  predicate Visible(st: State, g: Game, lower: string -> string)
  {
    && (st.searchQuery == "" || NameMatches(g, st.searchQuery, lower))
    && (TagFilterActive(st) ==> HasAllTags(g, st.selectedTags))
  }

  /**
   The grid: the section's games that match the search (when the query is
   not empty) and, in the zone section with tags selected, carry every
   selected tag; in their original order. `lower` stands for `toLowerCase`.
   */
  function FilteredGames(st: State, lower: string -> string): (r: seq<Game>)
    ensures IsSubsequence(r, SectionGames(st))
    ensures forall g :: g in r <==> g in SectionGames(st) && Visible(st, g, lower)
    ensures forall g :: multiset(r)[g] == if Visible(st, g, lower) then multiset(SectionGames(st))[g] else 0
    ensures st.searchQuery != "" ==> forall g :: g in r ==> NameMatches(g, st.searchQuery, lower)
    ensures TagFilterActive(st) ==> forall g :: g in r ==> HasAllTags(g, st.selectedTags)
    ensures st.searchQuery == "" && !TagFilterActive(st) ==> r == SectionGames(st)
  {
    var list := SectionGames(st);
    var byName := g => NameMatches(g, st.searchQuery, lower);
    var byTags := g => HasAllTags(g, st.selectedTags);
    var named := if st.searchQuery != "" then Filter(list, byName) else list;
    SubsequenceReflexive(list);
    if TagFilterActive(st) then
      if st.searchQuery != "" then
        FilterFilter(list, byName, byTags);
        Filter(named, byTags)
      else Filter(named, byTags)
    else named
  }

  /** The grid depends only on the section, the game lists, the query and the tags. */
  predicate SameGrid(a: State, b: State)
  {
    && a.section == b.section && a.zonaGames == b.zonaGames && a.arenaGames == b.arenaGames
    && a.searchQuery == b.searchQuery && a.selectedTags == b.selectedTags
  }

  /**
   Outside the zone section, or with no tag selected, the tag filter is the
   identity: the grid is the name search alone.
   */
  lemma TagFilterIdentity(st: State, lower: string -> string)
    requires st.section != Some(Zona) || st.selectedTags == []
    ensures FilteredGames(st, lower) ==
      (if st.searchQuery != "" then Filter(SectionGames(st), g => NameMatches(g, st.searchQuery, lower))
       else SectionGames(st))
  {
  }

  // ---------------------------------------------------------------------------
  // Views

  /** The intro is shown when no section is chosen and no game is open. */
  predicate ShowsIntro(st: State)
  {
    st.section.None? && st.selectedGame.None?
  }

  /** The grid is shown when a section is chosen and no game is open. */
  predicate ShowsGrid(st: State)
  {
    st.section.Some? && st.selectedGame.None?
  }

  /** The detail page is shown when a game is open. */
  predicate ShowsDetail(st: State)
  {
    st.selectedGame.Some?
  }

  /** The screenshot arrows and dots are shown on a detail page with at least one screenshot. */
  predicate ShowsCarousel(st: State)
  {
    st.selectedGame.Some? && |st.selectedGame.value.screenshots| > 0
  }

  /**
   What every reachable state satisfies: a game can only be open inside a
   section, the screenshot index is 0 while no game is open, and it points
   at a screenshot of the open game (or is 0 when the game has none).
   */
  predicate Inv(st: State)
  {
    && (st.selectedGame.None? ==> st.screenshotIndex == 0)
    && (st.selectedGame.Some? ==> st.section.Some?)
    && (st.selectedGame.Some? ==>
          st.screenshotIndex == 0 || st.screenshotIndex < |st.selectedGame.value.screenshots|)
  }

  /** Exactly one of intro, grid and detail page is shown; in a reachable state the detail page has a section. */
  lemma ExactlyOneView(st: State)
    ensures ShowsIntro(st) || ShowsGrid(st) || ShowsDetail(st)
    ensures !(ShowsIntro(st) && ShowsGrid(st))
    ensures !(ShowsIntro(st) && ShowsDetail(st))
    ensures !(ShowsGrid(st) && ShowsDetail(st))
    ensures Inv(st) && ShowsDetail(st) ==> st.section.Some?
  {
  }

  // ---------------------------------------------------------------------------
  // Carousel

  /** Number of screenshots of the open game. */
  function ScreenshotCount(st: State): nat
    requires st.selectedGame.Some?
  {
    |st.selectedGame.value.screenshots|
  }

  /**
   The right arrow: with a game open, the index moves one step forward and
   wraps from the last screenshot to the first; with no game open nothing
   happens. The arrows are only shown when there is a screenshot.
   */
  function NextScreenshot(st: State): (r: State)
    requires st.selectedGame.Some? ==> |st.selectedGame.value.screenshots| > 0
    ensures st.selectedGame.None? ==> r == st
    ensures r == st.(screenshotIndex := r.screenshotIndex)
    ensures st.selectedGame.Some? ==> r.screenshotIndex < ScreenshotCount(st)
    ensures st.selectedGame.Some? && st.screenshotIndex + 1 < ScreenshotCount(st) ==>
      r.screenshotIndex == st.screenshotIndex + 1
    ensures st.selectedGame.Some? && st.screenshotIndex + 1 == ScreenshotCount(st) ==>
      r.screenshotIndex == 0
  {
    if st.selectedGame.None? then st
    else
      ModStep(st.screenshotIndex + 1, |st.selectedGame.value.screenshots|);
      st.(screenshotIndex := (st.screenshotIndex + 1) % |st.selectedGame.value.screenshots|)
  }

  /**
   The left arrow: with a game open, the index moves one step back and wraps
   from the first screenshot to the last; with no game open nothing happens.
   */
  function PrevScreenshot(st: State): (r: State)
    requires st.selectedGame.Some? ==> |st.selectedGame.value.screenshots| > 0
    ensures st.selectedGame.None? ==> r == st
    ensures r == st.(screenshotIndex := r.screenshotIndex)
    ensures st.selectedGame.Some? && st.screenshotIndex < ScreenshotCount(st) ==>
      r.screenshotIndex < ScreenshotCount(st)
    ensures st.selectedGame.Some? && st.screenshotIndex > 0 ==> r.screenshotIndex + 1 == st.screenshotIndex
    ensures st.selectedGame.Some? && st.screenshotIndex == 0 ==> r.screenshotIndex + 1 == ScreenshotCount(st)
  {
    if st.selectedGame.None? then st
    else
      var n := |st.selectedGame.value.screenshots|;
      st.(screenshotIndex := if st.screenshotIndex == 0 then n - 1 else st.screenshotIndex - 1)
  }

  /** A dot under the carousel: jump straight to screenshot `i`. */
  function ShowScreenshot(st: State, i: nat): (r: State)
    requires st.selectedGame.Some? && i < |st.selectedGame.value.screenshots|
    ensures r == st.(screenshotIndex := i)
    ensures Inv(st) ==> Inv(r)
  {
    st.(screenshotIndex := i)
  }

  /** Back is the inverse of forward, and forward the inverse of back, on a valid index. */
  lemma PrevNextInverse(st: State)
    requires st.selectedGame.Some? && 0 <= st.screenshotIndex < |st.selectedGame.value.screenshots|
    ensures PrevScreenshot(NextScreenshot(st)) == st
    ensures NextScreenshot(PrevScreenshot(st)) == st
  {
  }

  /** `k` presses of the right arrow. */
  function NextTimes(st: State, k: nat): (r: State)
    requires st.selectedGame.Some? ==> |st.selectedGame.value.screenshots| > 0
    ensures r == st.(screenshotIndex := r.screenshotIndex)
  {
    if k == 0 then st else NextScreenshot(NextTimes(st, k - 1))
  }

  /** After `k` presses of the right arrow the index has advanced by `k` modulo the count. */
  lemma {:induction false} NextTimesIndex(st: State, k: nat)
    requires st.selectedGame.Some? && 0 <= st.screenshotIndex < |st.selectedGame.value.screenshots|
    ensures NextTimes(st, k).screenshotIndex == (st.screenshotIndex + k) % ScreenshotCount(st)
  {
    var n := ScreenshotCount(st);
    if k == 0 {
      ModUnique(st.screenshotIndex, n, 0, st.screenshotIndex);
    } else {
      NextTimesIndex(st, k - 1);
      var prev := NextTimes(st, k - 1);
      var a := st.screenshotIndex + k - 1;
      assert prev.selectedGame == st.selectedGame && prev.screenshotIndex == a % n;
      assert NextTimes(st, k).screenshotIndex == (prev.screenshotIndex + 1) % n;
      ModSucc(a, n);
    }
  }

  /** One more step modulo `n`. */
  lemma ModSucc(a: nat, n: nat)
    requires n > 0
    ensures (a % n + 1) % n == (a + 1) % n
  {
    var q := a / n;
    var m := a % n;
    assert a == q * n + m;
    if m + 1 == n {
      assert a + 1 == (q + 1) * n + 0;
      ModUnique(a + 1, n, q + 1, 0);
      ModUnique(m + 1, n, 1, 0);
    } else {
      ModUnique(a + 1, n, q, m + 1);
      ModUnique(m + 1, n, 0, m + 1);
    }
  }

  /** The remainder of a number below the modulus, or equal to it. */
  lemma ModStep(a: nat, n: nat)
    requires n > 0
    ensures a < n ==> a % n == a
    ensures a == n ==> a % n == 0
  {
    if a < n {
      ModUnique(a, n, 0, a);
    } else if a == n {
      ModUnique(a, n, 1, 0);
    }
  }

  /** The remainder is the only `r` in range with `x == q * n + r`. */
  lemma ModUnique(x: int, n: int, q: int, r: int)
    requires n > 0 && 0 <= r < n && x == q * n + r
    ensures x % n == r
  {
    var q', r' := x / n, x % n;
    assert x == q' * n + r';
    if q' < q {
      assert (q - q') * n == r' - r;
      MulAtLeast(q - q', n);
    } else if q' > q {
      assert (q' - q) * n == r - r';
      MulAtLeast(q' - q, n);
    }
  }

  /** A positive multiple of `n` is at least `n`. */
  lemma {:induction false} MulAtLeast(k: int, n: int)
    requires k >= 1 && n > 0
    ensures k * n >= n
    decreases k
  {
    if k > 1 {
      MulAtLeast(k - 1, n);
      assert k * n == (k - 1) * n + n;
    }
  }

  /** Pressing the right arrow once per screenshot comes back to where it started. */
  lemma NextCycle(st: State)
    requires st.selectedGame.Some? && 0 <= st.screenshotIndex < |st.selectedGame.value.screenshots|
    ensures NextTimes(st, ScreenshotCount(st)) == st
  {
    NextTimesIndex(st, ScreenshotCount(st));
    var n := ScreenshotCount(st);
    ModUnique(st.screenshotIndex + n, n, 1, st.screenshotIndex);
  }

  // ---------------------------------------------------------------------------
  // Navigation and the other user actions

  /**
   A section button: switch to section `s` with an empty search, no tag
   selected, no game open and the index at 0. The grid then lists every
   game of the section.
   */
  function HandleSectionChange(st: State, s: Section): (r: State)
    ensures ShowsGrid(r) && r.section == Some(s) && Inv(r)
    ensures r.searchQuery == "" && r.selectedTags == []
    ensures r.zonaGames == st.zonaGames && r.arenaGames == st.arenaGames
    ensures forall lower: string -> string :: FilteredGames(r, lower) == (if s == Zona then st.zonaGames else st.arenaGames)
  {
    State(Some(s), st.zonaGames, st.arenaGames, "", [], None, 0)
  }

  /**
   The back button on a detail page: close the game and reset the index,
   returning to the same grid with the same search and tags.
   */
  function CloseDetails(st: State): (r: State)
    ensures r.selectedGame.None? && r.screenshotIndex == 0
    ensures SameGrid(r, st)
    ensures Inv(st) ==> Inv(r)
    ensures Inv(st) && ShowsDetail(st) ==> ShowsGrid(r)
  {
    st.(selectedGame := None, screenshotIndex := 0)
  }

  /** A click on a card in the grid opens that game; the index is not touched. */
  function SelectGame(st: State, g: Game): (r: State)
    requires ShowsGrid(st)
    ensures ShowsDetail(r) && r.selectedGame == Some(g)
    ensures SameGrid(r, st)
    ensures Inv(st) ==> Inv(r) && r.screenshotIndex == 0
  {
    st.(selectedGame := Some(g))
  }

  /** Typing in the search box. */
  function SetSearch(st: State, query: string): (r: State)
    ensures r == st.(searchQuery := query)
    ensures Inv(st) ==> Inv(r)
  {
    st.(searchQuery := query)
  }

  /**
   A tag checkbox: ticking appends the tag to the selection, unticking
   removes every occurrence of it and keeps the other tags in order.
   */
  function HandleTagChange(st: State, tag: string, checked: bool): (r: State)
    ensures r == st.(selectedTags := r.selectedTags)
    ensures checked ==> r.selectedTags == st.selectedTags + [tag]
    ensures !checked ==> tag !in r.selectedTags && IsSubsequence(r.selectedTags, st.selectedTags)
    ensures !checked ==> forall t :: t != tag ==> multiset(r.selectedTags)[t] == multiset(st.selectedTags)[t]
    ensures Inv(st) ==> Inv(r)
  {
    st.(selectedTags := Toggle(st.selectedTags, tag, checked))
  }

  /** The zone list arrived (an empty list when its request failed). */
  function LoadZona(st: State, games: seq<Game>): (r: State)
    ensures r == st.(zonaGames := games)
    ensures Inv(st) ==> Inv(r)
  {
    st.(zonaGames := games)
  }

  /** The arena list arrived. */
  function LoadArena(st: State, games: seq<Game>): (r: State)
    ensures r == st.(arenaGames := games)
    ensures Inv(st) ==> Inv(r)
  {
    st.(arenaGames := games)
  }

  // ---------------------------------------------------------------------------
  // Runs

  /** Everything that can happen to the browser. */
  datatype Event =
    | LoadedZona(games: seq<Game>)
    | LoadedArena(games: seq<Game>)
    | ChooseSection(s: Section)
    | TypeSearch(query: string)
    | TickTag(tag: string, checked: bool)
    | OpenGame(g: Game)
    | Close
    | Next
    | Prev
    | Dot(i: nat)

  /**
   Whether the control behind an event is on screen: search box and cards
   in the grid, tag boxes in the zone grid, back button on a detail page,
   arrows and dots on a detail page with screenshots. Loads and the section
   buttons are always possible.
   */
  predicate Enabled(st: State, e: Event): (r: bool)
    ensures ShowsIntro(st) ==> (r <==> e.LoadedZona? || e.LoadedArena? || e.ChooseSection?)
    ensures r && (e.Next? || e.Prev? || e.Dot?) ==>
      st.selectedGame.Some? && |st.selectedGame.value.screenshots| > 0
    ensures r && (e.TypeSearch? || e.TickTag? || e.OpenGame?) ==> st.section.Some? && st.selectedGame.None?
    ensures r && e.TickTag? ==> st.section == Some(Zona)
    ensures e.Close? ==> (r <==> st.selectedGame.Some?)
    ensures e.LoadedZona? || e.LoadedArena? || e.ChooseSection? ==> r
    ensures ShowsGrid(st) && (e.TypeSearch? || e.OpenGame?) ==> r
    ensures ShowsGrid(st) && st.section == Some(Zona) && e.TickTag? ==> r
    ensures ShowsCarousel(st) && (e.Next? || e.Prev?) ==> r
    ensures e.Dot? ==> (r <==> ShowsCarousel(st) && e.i < |st.selectedGame.value.screenshots|)
  {
    match e
    case LoadedZona(_) => true
    case LoadedArena(_) => true
    case ChooseSection(_) => true
    case TypeSearch(_) => ShowsGrid(st)
    case TickTag(_, _) => ShowsGrid(st) && st.section == Some(Zona)
    case OpenGame(_) => ShowsGrid(st)
    case Close => ShowsDetail(st)
    case Next => ShowsCarousel(st)
    case Prev => ShowsCarousel(st)
    case Dot(i) => ShowsCarousel(st) && i < |st.selectedGame.value.screenshots|
  }

  /** The effect of one enabled event. */
  function Step(st: State, e: Event): State
    requires Enabled(st, e)
  {
    match e
    case LoadedZona(games) => LoadZona(st, games)
    case LoadedArena(games) => LoadArena(st, games)
    case ChooseSection(s) => HandleSectionChange(st, s)
    case TypeSearch(query) => SetSearch(st, query)
    case TickTag(tag, checked) => HandleTagChange(st, tag, checked)
    case OpenGame(g) => SelectGame(st, g)
    case Close => CloseDetails(st)
    case Next => NextScreenshot(st)
    case Prev => PrevScreenshot(st)
    case Dot(i) => ShowScreenshot(st, i)
  }

  /** Every enabled event keeps the invariant. */
  lemma StepKeepsInv(st: State, e: Event)
    requires Inv(st) && Enabled(st, e)
    ensures Inv(Step(st, e))
  {
  }

  /** Whether each event of the run is enabled when it happens. */
  predicate RunEnabled(st: State, events: seq<Event>)
    decreases |events|
  {
    |events| == 0 || (Enabled(st, events[0]) && RunEnabled(Step(st, events[0]), events[1..]))
  }

  /** The state after a run of events. */
  function Run(st: State, events: seq<Event>): State
    requires RunEnabled(st, events)
    decreases |events|
  {
    if |events| == 0 then st else Run(Step(st, events[0]), events[1..])
  }

  /** Every state reachable from the first render satisfies the invariant. */
  lemma {:induction false} ReachableInv(st: State, events: seq<Event>)
    requires Inv(st) && RunEnabled(st, events)
    ensures Inv(Run(st, events))
    decreases |events|
  {
    if |events| > 0 {
      StepKeepsInv(st, events[0]);
      ReachableInv(Step(st, events[0]), events[1..]);
    }
  }

  /** In every reachable state a newly opened game starts at its first screenshot. */
  lemma OpenStartsAtFirstScreenshot(events: seq<Event>, g: Game)
    requires RunEnabled(Initial, events)
    requires ShowsGrid(Run(Initial, events))
    ensures SelectGame(Run(Initial, events), g).screenshotIndex == 0
  {
    ReachableInv(Initial, events);
  }
}

=== FILE: catalog.dfy ===
/**
 Vocabulary shared by the editor and the browser: the optional value, and the
 closed sets of labels a catalog entry chooses from.
 */
module Catalog {

  /** A value that may be absent, as an optional property or a `null` state is. */
  datatype Option<T> = None | Some(value: T)

  /** Russian-language support: present, absent, or subtitles only. */
  datatype Russian = Present | Absent | SubtitlesOnly

  /** Age category: children 6-12, teens 12-16, youth 16-18, adults 18 and over. */
  datatype Age = Children | Teens | Youth | Adults

  /** Control difficulty, one of the five values 1 to 5. */
  type Difficulty = d: int | 1 <= d <= 5 witness 1
}

=== FILE: editor.dfy ===
/**
 The catalog editor: the in-memory list of saved records, the defaults for a
 title that has no record yet, the name-uniqueness check, the save path that
 updates or appends a record, and the genre list with its search box.
 */
module Editor {
  import opened Catalog
  import opened Seqs
  import opened Text

  /** One catalog record as the editor stores and sends it. */
  datatype GameData = GameData(
    id: Option<string>,
    name: string,
    russian: Russian,
    control: seq<string>,
    violation: seq<string>,
    age: Age,
    difficulty: Difficulty,
    tags: seq<string>,
    screenshots: seq<string>,
    description: string,
    trailer: string,
    cardHeader: string,
    mobileCardHeader: string)

  /** The fixed genre lists shown in the navigation bar. */
  const GenresData: map<string, seq<string>> := map[
    "Шутеры" := [
      "Arizona Sunshine Remake", "Arizona Sunshine 2", "BONEWORKS", "BONELAB",
      "Containment Initiative 2", "Crossfire: Sierra Squad",
      "Guns'n'Stories: Bulletproof VR", "Half-Life: Alyx", "Into the Radius",
      "Raw Data", "SUPERHOT VR"],
    "Драки" := [
      "GORN", "GORN 2", "Hellsplit: Arena", "Creed: Rise to Glory",
      "SWORDS Of GARGANTUA", "UNDERDOGS"],
    "Детские" := [
      "Beat Saber", "Angry Birds VR: Isle of Pigs", "Bugsnax",
      "The Wizards - Enhanced Edition", "Loco Dojo"],
    "Выживание" := [
      "No Man's Sky", "Elven Assassin", "Survival Nation", "The Forest"],
    "Хоррор" := [
      "Phasmophobia", "FIVE NIGHTS AT FREDDY'S: HELP WANTED"],
    "Симуляторы" := [
      "Job Simulator", "I Am Cat", "Maestro", "Walkabout Mini Golf VR",
      "Vacation Simulator", "Cooking Simulator"],
    "Головоломки" := [
      "Myst", "Moss", "Moss: Book II"]
  ]

  /** JavaScript truthiness of an optional string: present and not empty. */
  predicate IsTruthy(s: Option<string>)
  {
    s.Some? && s.value != ""
  }

  /**
   The record offered for a title nobody has saved yet: Russian absent,
   adult audience, difficulty 1, every list and text empty, no id.
   */
  function DefaultGameData(name: string): GameData
  {
    GameData(None, name, Absent, [], [], Adults, 1, [], [], "", "", "", "")
  }

  /** Position of the first record called `name`, searching from `from` on. */
  function FindByName(games: seq<GameData>, name: string, from: nat): (r: Option<nat>)
    requires from <= |games|
    ensures r.Some? ==> from <= r.value < |games| && games[r.value].name == name
    ensures r.Some? ==> forall j :: from <= j < r.value ==> games[j].name != name
    ensures r.None? ==> forall j :: from <= j < |games| ==> games[j].name != name
    decreases |games| - from
  {
    if from == |games| then None
    else if games[from].name == name then Some(from)
    else FindByName(games, name, from + 1)
  }

  /**
   The record the edit dialog opens with: the first saved record with exactly
   this name, or the defaults when there is none. Either way it carries the
   requested name.
   */
  function GetGameData(games: seq<GameData>, name: string): (r: GameData)
    ensures r.name == name
    ensures (exists i :: 0 <= i < |games| && games[i].name == name) ==>
      exists i :: 0 <= i < |games| && games[i] == r && forall j :: 0 <= j < i ==> games[j].name != name
    ensures (forall i :: 0 <= i < |games| ==> games[i].name != name) ==> r == DefaultGameData(name)
  {
    match FindByName(games, name, 0)
    case Some(i) => games[i]
    case None => DefaultGameData(name)
  }

  /**
   Whether saving `name` under identity `id` would clash: some record has
   exactly this name (case-sensitive) and a different identity, where an
   absent identity differs from every present one.
   */
  function IsDuplicateName(games: seq<GameData>, name: string, id: Option<string>): (r: bool)
    ensures r <==> exists i :: 0 <= i < |games| && games[i].name == name && games[i].id != id
  {
    if |games| == 0 then false
    else if games[0].name == name && games[0].id != id then true
    else
      var r := IsDuplicateName(games[1..], name, id);
      assert forall i :: 1 <= i < |games| ==> games[i] == games[1..][i - 1];
      assert r ==> exists i :: 0 <= i < |games| && games[i].name == name && games[i].id != id by {
        if r {
          var k :| 0 <= k < |games[1..]| && games[1..][k].name == name && games[1..][k].id != id;
          assert games[k + 1] == games[1..][k];
        }
      }
      r
  }

  /** No two records share a name. */
  predicate NamesUnique(games: seq<GameData>)
  {
    forall i, j :: 0 <= i < j < |games| ==> games[i].name != games[j].name
  }

  /** Every record has a non-empty identity and no two records share one. */
  predicate IdsAssigned(games: seq<GameData>)
  {
    && (forall i :: 0 <= i < |games| ==> IsTruthy(games[i].id))
    && (forall i, j :: 0 <= i < j < |games| ==> games[i].id != games[j].id)
  }

  /**
   A record saved under its own identity and its unchanged name is never a
   duplicate of itself, when names are unique.
   */
  lemma OwnNameIsNotDuplicate(games: seq<GameData>, k: nat)
    requires k < |games| && NamesUnique(games)
    ensures !IsDuplicateName(games, games[k].name, games[k].id)
  {
  }

  /**
   The update path of a save: every record whose identity equals the saved
   record's identity is replaced by it, every other record stays put.
   */
  function ReplaceById(games: seq<GameData>, saved: GameData): (r: seq<GameData>)
    ensures |r| == |games|
    ensures forall i :: 0 <= i < |games| && games[i].id == saved.id ==> r[i] == saved
    ensures forall i :: 0 <= i < |games| && games[i].id != saved.id ==> r[i] == games[i]
  {
    if |games| == 0 then []
    else [if games[0].id == saved.id then saved else games[0]] + ReplaceById(games[1..], saved)
  }

  /** The request a save issues: update by identity when the draft has one, otherwise create. */
  datatype Request = Put(id: string, body: GameData) | Post(body: GameData)

  /** How a save ended. Only `Saved` closes the dialog; the others leave the draft open. */
  datatype SaveStatus = DuplicateName | RequestFailed | Saved

  datatype SaveResult = SaveResult(games: seq<GameData>, status: SaveStatus)

  /**
   The request for a draft: an update addressed by the draft's identity when
   that identity is a non-empty string, a create otherwise.
   */
  function SaveRequest(draft: GameData): (r: Request)
    ensures r.body == draft
    ensures r.Put? <==> IsTruthy(draft.id)
    ensures r.Put? ==> draft.id == Some(r.id)
  {
    if IsTruthy(draft.id) then Put(draft.id.value, draft) else Post(draft)
  }

  /**
   Saving a draft. A clashing name aborts before any request; a request that
   fails changes nothing; otherwise the record the server returns replaces
   the records with its identity (update) or is appended (create).
   `response` is what the persistence service answered, `None` for a failure.
   */
  function HandleSave(games: seq<GameData>, draft: GameData, response: Option<GameData>): (r: SaveResult)
    ensures r.status == DuplicateName <==> IsDuplicateName(games, draft.name, draft.id)
    ensures r.status != Saved ==> r.games == games
    ensures r.status == RequestFailed <==> !IsDuplicateName(games, draft.name, draft.id) && response.None?
    ensures r.status == Saved && SaveRequest(draft).Put? ==>
      && |r.games| == |games|
      && (forall i :: 0 <= i < |games| && games[i].id == response.value.id ==> r.games[i] == response.value)
      && (forall i :: 0 <= i < |games| && games[i].id != response.value.id ==> r.games[i] == games[i])
    ensures r.status == Saved && SaveRequest(draft).Post? ==> r.games == games + [response.value]
  {
    if IsDuplicateName(games, draft.name, draft.id) then SaveResult(games, DuplicateName)
    else match response
      case None => SaveResult(games, RequestFailed)
      case Some(saved) =>
        match SaveRequest(draft)
        case Put(_, _) => SaveResult(ReplaceById(games, saved), Saved)
        case Post(_) => SaveResult(games + [saved], Saved)
  }

  /**
   Name uniqueness survives every save, given that the records all carry
   distinct identities, the server echoes the name it was sent, an update
   keeps the identity it was addressed by, and a create is given an identity
   not yet in use.
   */
  lemma SaveKeepsNamesUnique(games: seq<GameData>, draft: GameData, saved: GameData)
    requires NamesUnique(games) && IdsAssigned(games)
    requires saved.name == draft.name
    requires IsTruthy(draft.id) ==> saved.id == draft.id
    requires !IsTruthy(draft.id) ==> IsTruthy(saved.id) && forall i :: 0 <= i < |games| ==> games[i].id != saved.id
    ensures NamesUnique(HandleSave(games, draft, Some(saved)).games)
    ensures IdsAssigned(HandleSave(games, draft, Some(saved)).games)
  {
    var r := HandleSave(games, draft, Some(saved));
    if r.status == Saved {
      assert !IsDuplicateName(games, draft.name, draft.id);
      if IsTruthy(draft.id) {
        var g := r.games;
        forall i, j | 0 <= i < j < |g|
          ensures g[i].name != g[j].name && g[i].id != g[j].id
        {
          assert games[i].id == saved.id ==> games[j].id != saved.id;
        }
      } else {
        var g := r.games;
        assert g == games + [saved];
        forall i | 0 <= i < |games|
          ensures games[i].name != saved.name
        {
          assert games[i].id != draft.id;
        }
      }
    }
  }

  /**
   The genre list on screen: the chosen genre's titles, the empty list for a
   genre name that is not in the table, and all titles when no genre (or the
   empty name) is chosen.
   */
  function GenreList(genre: Option<string>, allGames: seq<string>): seq<string>
  {
    if IsTruthy(genre) then
      if genre.value in GenresData then GenresData[genre.value] else []
    else allGames
  }

  /** A title matches the search when the query is empty or occurs in the title, both lower-cased. */
  predicate MatchesQuery(title: string, query: string, lower: string -> string)
  {
    query == "" || Contains(lower(title), lower(query))
  }

  /**
   The titles in the table: those of the current genre list that match the
   search, in the list's order. `lower` stands for `toLowerCase`.
   */
  function FilteredGames(genre: Option<string>, query: string, allGames: seq<string>, lower: string -> string): (r: seq<string>)
    ensures IsSubsequence(r, GenreList(genre, allGames))
    ensures forall t :: t in r <==> t in GenreList(genre, allGames) && MatchesQuery(t, query, lower)
    ensures forall t :: multiset(r)[t] == if MatchesQuery(t, query, lower) then multiset(GenreList(genre, allGames))[t] else 0
    ensures query == "" ==> r == GenreList(genre, allGames)
    ensures IsTruthy(genre) && genre.value !in GenresData ==> r == []
    ensures !IsTruthy(genre) && query == "" ==> r == allGames
  {
    var list := GenreList(genre, allGames);
    if query != "" then
      Filter(list, t => Contains(lower(t), lower(query)))
    else
      SubsequenceReflexive(list);
      list
  }
}

=== FILE: game_modal.dfy ===
/**
 The edit dialog of the catalog editor. On opening, the `control` and
 `violation` lists of a record are split into ticked fixed options and a
 free-text "other" field; checkboxes add and remove options; on saving, the
 free text is cut at commas and its trimmed, non-empty pieces are appended
 to the ticked options.
 */
module GameModal {
  import opened Catalog
  import opened Seqs
  import opened Text
  import opened Editor

  /** The ways of playing offered as checkboxes. */
  const FixedControls: seq<string> := ["Сидя", "Стоя", "Телепорт", "Отклонение стиков"]

  /** The content warnings offered as checkboxes. */
  const FixedViolations: seq<string> := [
    "Жестокость", "Много крови", "Взрослый юмор",
    "Распитие алкогольных напитков", "Курение", "Ненормативная лексика"]

  /** One list field while the dialog is open: ticked options, the "other" checkbox and its text. */
  datatype OptionField = OptionField(selected: seq<string>, isOther: bool, otherText: string)

  /** The dialog's editable state. */
  datatype Draft = Draft(
    russian: Russian,
    control: OptionField,
    violation: OptionField,
    age: Age,
    difficulty: Difficulty,
    tags: seq<string>,
    screenshots: seq<string>,
    description: string,
    trailer: string,
    cardHeader: string,
    mobileCardHeader: string)

  /** Membership in a list of fixed options, as a predicate. */
  function InList(fixed: seq<string>): string -> bool
  {
    v => v in fixed
  }

  /** The stored values that are not fixed options, in their stored order. */
  function OtherValues(values: seq<string>, fixed: seq<string>): (r: seq<string>)
    ensures IsSubsequence(r, values)
    ensures forall v :: v in r <==> v in values && v !in fixed
    ensures forall v :: multiset(r)[v] == if v in fixed then 0 else multiset(values)[v]
  {
    Filter(values, Not(InList(fixed)))
  }

  /** A list of fixed options only leaves nothing for the text field. */
  lemma NoOthersWhenAllFixed(values: seq<string>, fixed: seq<string>)
    ensures (forall v :: v in values ==> v in fixed) ==> OtherValues(values, fixed) == []
  {
    if forall v :: v in values ==> v in fixed {
      FilterDropsAll(values, Not(InList(fixed)));
    }
  }

  /**
   Splitting a stored list on opening: the ticked options are exactly the
   stored values that are fixed options, in stored order; the text holds
   the remaining values joined with ", "; the "other" box is ticked exactly
   when that text is not empty.
   */
  function SplitOnLoad(values: seq<string>, fixed: seq<string>): (f: OptionField)
    ensures IsSubsequence(f.selected, values)
    ensures forall v :: v in f.selected <==> v in values && v in fixed
    ensures forall v :: multiset(f.selected)[v] == if v in fixed then multiset(values)[v] else 0
    ensures f.otherText == Join(OtherValues(values, fixed), ", ")
    ensures f.isOther <==> f.otherText != ""
    ensures (forall v :: v in values ==> v in fixed) ==> !f.isOther && f.otherText == ""
    ensures (exists v :: v in values && v !in fixed && v != "") ==> f.isOther
  {
    var selected := Filter(values, InList(fixed));
    var text := Join(OtherValues(values, fixed), ", ");
    KeptFixed(values, fixed, selected);
    OtherTextEmpty(values, fixed);
    OptionField(selected, text != "", text)
  }

  /** The fixed values kept from a stored list, stated without the predicate. */
  lemma KeptFixed(values: seq<string>, fixed: seq<string>, selected: seq<string>)
    requires selected == Filter(values, InList(fixed))
    ensures forall v :: v in selected <==> v in values && v in fixed
    ensures forall v :: multiset(selected)[v] == if v in fixed then multiset(values)[v] else 0
  {
    forall v
      ensures (v in selected <==> v in values && v in fixed)
      ensures multiset(selected)[v] == if v in fixed then multiset(values)[v] else 0
    {
      assert InList(fixed)(v) == (v in fixed);
    }
  }

  /** The joined other values are empty when all values are fixed, and not when a non-empty one is not. */
  lemma OtherTextEmpty(values: seq<string>, fixed: seq<string>)
    ensures (forall v :: v in values ==> v in fixed) ==> Join(OtherValues(values, fixed), ", ") == ""
    ensures (exists v :: v in values && v !in fixed && v != "") ==> Join(OtherValues(values, fixed), ", ") != ""
  {
    var others := OtherValues(values, fixed);
    JoinEmpty(others, ", ");
    NoOthersWhenAllFixed(values, fixed);
  }

  /**
   Opening the dialog on a record: both list fields are split against their
   fixed options, every other field starts from the record.
   */
  function OpenDraft(g: GameData): (d: Draft)
    ensures d.control == SplitOnLoad(g.control, FixedControls)
    ensures d.violation == SplitOnLoad(g.violation, FixedViolations)
    ensures d.russian == g.russian && d.age == g.age && d.difficulty == g.difficulty
    ensures d.tags == g.tags && d.screenshots == g.screenshots && d.description == g.description
    ensures d.trailer == g.trailer && d.cardHeader == g.cardHeader && d.mobileCardHeader == g.mobileCardHeader
  {
    Draft(g.russian, SplitOnLoad(g.control, FixedControls), SplitOnLoad(g.violation, FixedViolations),
          g.age, g.difficulty, g.tags, g.screenshots, g.description, g.trailer, g.cardHeader, g.mobileCardHeader)
  }

  /**
   Ticking a fixed option appends it; unticking removes every occurrence and
   keeps the other ticked options in order. The "other" box and text are untouched.
   */
  function ToggleOption(f: OptionField, option: string, checked: bool): (r: OptionField)
    ensures r.isOther == f.isOther && r.otherText == f.otherText
    ensures checked ==> r.selected == f.selected + [option]
    ensures !checked ==> option !in r.selected && IsSubsequence(r.selected, f.selected)
    ensures !checked ==> forall v :: v != option ==> multiset(r.selected)[v] == multiset(f.selected)[v]
  {
    f.(selected := Toggle(f.selected, option, checked))
  }

  /** JavaScript truthiness of a string, the test of `filter(Boolean)`. */
  predicate NonEmpty(s: string)
  {
    s != ""
  }

  /**
   The pieces of the free text that are appended on saving: the trimmed text
   is cut at every comma, each piece is trimmed, and empty pieces are
   dropped. No piece is empty, has surrounding whitespace or holds a comma.
   */
  function Segments(text: string): (r: seq<string>)
    ensures forall s :: s in r ==> s != "" && IsTrimmed(s) && ',' !in s
    ensures IsSubsequence(r, TrimAll(Split(Trim(text), ',')))
    ensures forall s :: s in r <==> s in TrimAll(Split(Trim(text), ',')) && s != ""
    ensures forall s :: multiset(r)[s] == if s != "" then multiset(TrimAll(Split(Trim(text), ',')))[s] else 0
  {
    var trimmed := TrimAll(Split(Trim(text), ','));
    TrimmedPieces(Trim(text), ',');
    var r := Filter(trimmed, NonEmpty);
    FilterNonEmpty(trimmed, r);
    r
  }

  /** Keeping the non-empty strings, stated without the predicate. */
  lemma FilterNonEmpty(xs: seq<string>, r: seq<string>)
    requires r == Filter(xs, NonEmpty)
    ensures forall s :: s in r <==> s in xs && s != ""
    ensures forall s :: multiset(r)[s] == if s != "" then multiset(xs)[s] else 0
  {
    forall s
      ensures (s in r <==> s in xs && s != "")
      ensures multiset(r)[s] == if s != "" then multiset(xs)[s] else 0
    {
      assert NonEmpty(s) == (s != "");
    }
  }

  /** Whether the free text contributes on saving: its box is ticked and it is not blank. */
  predicate ContributesOther(f: OptionField)
  {
    f.isOther && Trim(f.otherText) != ""
  }

  /**
   The list saved for a field: the ticked options in their order, followed,
   when the "other" box is ticked and its text is not blank, by the text's
   pieces; nothing blank is ever appended.
   */
  function MergeOnSave(f: OptionField): (r: seq<string>)
    ensures |r| >= |f.selected| && r[..|f.selected|] == f.selected
    ensures forall s :: s in r[|f.selected|..] ==> s != "" && IsTrimmed(s) && ',' !in s
    ensures !ContributesOther(f) ==> r == f.selected
    ensures ContributesOther(f) ==> r[|f.selected|..] == Segments(f.otherText)
  {
    if ContributesOther(f) then f.selected + Segments(f.otherText) else f.selected
  }

  /** The record sent on saving: identity and name from the opened record, the rest from the dialog. */
  function SaveClick(g: GameData, d: Draft): (r: GameData)
    ensures r.id == g.id && r.name == g.name
    ensures r.control == MergeOnSave(d.control) && r.violation == MergeOnSave(d.violation)
    ensures r.russian == d.russian && r.age == d.age && r.difficulty == d.difficulty
    ensures r.tags == d.tags && r.screenshots == d.screenshots && r.description == d.description
    ensures r.trailer == d.trailer && r.cardHeader == d.cardHeader && r.mobileCardHeader == d.mobileCardHeader
    ensures |r.control| >= |d.control.selected| && r.control[..|d.control.selected|] == d.control.selected
    ensures |r.violation| >= |d.violation.selected| && r.violation[..|d.violation.selected|] == d.violation.selected
    ensures forall s :: s in r.control[|d.control.selected|..] ==> s != "" && IsTrimmed(s)
    ensures forall s :: s in r.violation[|d.violation.selected|..] ==> s != "" && IsTrimmed(s)
  {
    GameData(g.id, g.name, d.russian, MergeOnSave(d.control), MergeOnSave(d.violation),
             d.age, d.difficulty, d.tags, d.screenshots, d.description, d.trailer, d.cardHeader, d.mobileCardHeader)
  }

  /** Non-fixed values that survive the text field unchanged: non-empty, trimmed, comma-free. */
  predicate PlainOthers(values: seq<string>, fixed: seq<string>)
  {
    forall v :: v in values && v !in fixed ==> v != "" && IsTrimmed(v) && ',' !in v
  }

  /**
   Splitting a list and merging it straight back gives the fixed values
   followed by the others, each group in stored order, provided the others
   are plain; this is a permutation of the stored list.
   */
  lemma SplitMergeRoundTrip(values: seq<string>, fixed: seq<string>)
    requires PlainOthers(values, fixed)
    ensures MergeOnSave(SplitOnLoad(values, fixed)) == Filter(values, InList(fixed)) + OtherValues(values, fixed)
    ensures multiset(MergeOnSave(SplitOnLoad(values, fixed))) == multiset(values)
  {
    var f := SplitOnLoad(values, fixed);
    var others := OtherValues(values, fixed);
    FilterPartition(values, InList(fixed));
    if others == [] {
      assert !f.isOther;
      assert Filter(values, InList(fixed)) + others == Filter(values, InList(fixed));
    } else {
      forall i | 0 <= i < |others|
        ensures others[i] != "" && IsTrimmed(others[i]) && ',' !in others[i]
      {
        assert others[i] in others;
      }
      SegmentsOfJoin(others);
    }
  }

  /**
   Non-empty, trimmed, comma-free values joined with ", " as the dialog
   shows them come back as the pieces appended on saving.
   */
  lemma SegmentsOfJoin(others: seq<string>)
    requires |others| > 0
    requires forall i :: 0 <= i < |others| ==> others[i] != "" && IsTrimmed(others[i]) && ',' !in others[i]
    ensures Segments(Join(others, ", ")) == others
  {
    PlainJoinPieces(others);
    SegmentsOfTrimmed(Join(others, ", "));
  }

  /** The joined text is trimmed, and its non-empty trimmed comma pieces are the values. */
  lemma PlainJoinPieces(others: seq<string>)
    requires |others| > 0
    requires forall i :: 0 <= i < |others| ==> others[i] != "" && IsTrimmed(others[i]) && ',' !in others[i]
    ensures IsTrimmed(Join(others, ", "))
    ensures Filter(TrimAll(Split(Join(others, ", "), ',')), NonEmpty) == others
  {
    JoinTrimmed(others, ", ");
    TrimAllSplitJoinCommaSpace(others);
    KeepsNonEmpty(others);
  }

  /** A list of non-empty strings survives the filter for non-empty ones. */
  lemma KeepsNonEmpty(xs: seq<string>)
    requires forall i :: 0 <= i < |xs| ==> xs[i] != ""
    ensures Filter(xs, NonEmpty) == xs
  {
    forall x | x in xs
      ensures NonEmpty(x)
    {
      var i :| 0 <= i < |xs| && xs[i] == x;
    }
    FilterKeepsAll(xs, NonEmpty);
  }

  /** A text without surrounding whitespace is cut as it stands. */
  lemma SegmentsOfTrimmed(text: string)
    requires IsTrimmed(text)
    ensures Segments(text) == Filter(TrimAll(Split(text, ',')), NonEmpty)
  {
    assert Trim(text) == text;
  }

  /**
   When every fixed value is stored before every other value, splitting and
   merging gives back the stored list itself.
   */
  lemma SplitMergeIdentity(values: seq<string>, fixed: seq<string>)
    requires PlainOthers(values, fixed)
    requires forall i, j :: 0 <= i < j < |values| && values[j] in fixed ==> values[i] in fixed
    ensures MergeOnSave(SplitOnLoad(values, fixed)) == values
  {
    SplitMergeRoundTrip(values, fixed);
    FilterPartitionOrdered(values, InList(fixed));
  }

  /**
   Opening a record in the dialog and saving it untouched changes only the
   order within `control` and `violation`: fixed options move ahead of the
   others. A record already in that order comes back unchanged.
   */
  lemma OpenSaveRoundTrip(g: GameData)
    requires PlainOthers(g.control, FixedControls) && PlainOthers(g.violation, FixedViolations)
    ensures SaveClick(g, OpenDraft(g)) == g.(
      control := Filter(g.control, InList(FixedControls)) + OtherValues(g.control, FixedControls),
      violation := Filter(g.violation, InList(FixedViolations)) + OtherValues(g.violation, FixedViolations))
    ensures multiset(SaveClick(g, OpenDraft(g)).control) == multiset(g.control)
    ensures multiset(SaveClick(g, OpenDraft(g)).violation) == multiset(g.violation)
  {
    SplitMergeRoundTrip(g.control, FixedControls);
    SplitMergeRoundTrip(g.violation, FixedViolations);
  }
}

=== FILE: order.dfy ===
/**
 The default ordering of `Array.prototype.sort` on strings, read as
 lexicographic comparison character by character, and the sorted list of
 distinct strings that `[...new Set(xs)].sort()` produces.
 */
module Order {

  /** Lexicographic order on strings: a proper prefix comes first. */
  predicate LexLess(a: string, b: string)
  {
    |b| > 0 && (|a| == 0 || a[0] < b[0] || (a[0] == b[0] && LexLess(a[1..], b[1..])))
  }

  /** No string precedes itself. */
  lemma {:induction false} LexIrreflexive(a: string)
    ensures !LexLess(a, a)
  {
    if |a| > 0 {
      LexIrreflexive(a[1..]);
    }
  }

  /** The order is transitive. */
  lemma {:induction false} LexTransitive(a: string, b: string, c: string)
    requires LexLess(a, b) && LexLess(b, c)
    ensures LexLess(a, c)
  {
    if |a| > 0 && a[0] == b[0] && b[0] == c[0] {
      LexTransitive(a[1..], b[1..], c[1..]);
    }
  }

  /** Any two distinct strings are ordered one way or the other. */
  lemma {:induction false} LexTotal(a: string, b: string)
    requires a != b
    ensures LexLess(a, b) || LexLess(b, a)
  {
    if |a| > 0 && |b| > 0 && a[0] == b[0] {
      assert a == [a[0]] + a[1..] && b == [b[0]] + b[1..];
      LexTotal(a[1..], b[1..]);
    }
  }

  /** The three facts above, stated for all strings at once. */
  lemma LexStrictTotalOrder()
    ensures forall a :: !LexLess(a, a)
    ensures forall a, b, c :: LexLess(a, b) && LexLess(b, c) ==> LexLess(a, c)
    ensures forall a, b :: a != b ==> LexLess(a, b) || LexLess(b, a)
  {
    forall a {
      LexIrreflexive(a);
    }
    forall a, b, c | LexLess(a, b) && LexLess(b, c) {
      LexTransitive(a, b, c);
    }
    forall a, b | a != b {
      LexTotal(a, b);
    }
  }

  /** Every element precedes every later one: ascending and free of duplicates. */
  predicate StrictlySorted(s: seq<string>)
  {
    forall i, j :: 0 <= i < j < |s| ==> LexLess(s[i], s[j])
  }

  /** A strictly sorted sequence lists each of its elements once. */
  lemma StrictlySortedDistinct(s: seq<string>)
    requires StrictlySorted(s)
    ensures forall i, j :: 0 <= i < j < |s| ==> s[i] != s[j]
  {
    LexStrictTotalOrder();
  }

  /** Putting a new least element in front keeps a sequence strictly sorted. */
  lemma ConsSorted(h: string, s: seq<string>)
    requires StrictlySorted(s)
    requires forall y :: y in s ==> LexLess(h, y)
    ensures StrictlySorted([h] + s)
  {
    var r := [h] + s;
    forall i, j | 0 <= i < j < |r|
      ensures LexLess(r[i], r[j])
    {
      assert r[j] == s[j - 1];
      if i > 0 {
        assert r[i] == s[i - 1];
      }
    }
  }

  /**
   Insertion into a strictly sorted sequence: the result is strictly sorted
   and holds exactly the old elements and `x`.
   */
  function Insert(x: string, s: seq<string>): (r: seq<string>)
    requires StrictlySorted(s)
    ensures StrictlySorted(r)
    ensures forall y :: y in r <==> y in s || y == x
  {
    if |s| == 0 then [x]
    else if x == s[0] then s
    else if LexLess(x, s[0]) then
      LexStrictTotalOrder();
      ConsSorted(x, s);
      ConsMembers(x, s);
      [x] + s
    else
      var rest := Insert(x, s[1..]);
      LexTotal(x, s[0]);
      assert forall y :: y in s[1..] ==> LexLess(s[0], y);
      ConsSorted(s[0], rest);
      assert s == [s[0]] + s[1..];
      [s[0]] + rest
  }

  /** Membership in `[x] + s`, spelled out. */
  lemma ConsMembers(x: string, s: seq<string>)
    ensures forall y :: y in [x] + s <==> y in s || y == x
  {
  }

  /**
   The distinct elements of `xs` in ascending order, which is what
   `[...new Set(xs)].sort()` yields.
   */
  function SortedDistinct(xs: seq<string>): (r: seq<string>)
    ensures StrictlySorted(r)
    ensures forall y :: y in r <==> y in xs
  {
    if |xs| == 0 then []
    else
      assert xs == [xs[0]] + xs[1..];
      Insert(xs[0], SortedDistinct(xs[1..]))
  }

  /**
   A strictly sorted sequence is determined by its elements: two of them
   holding the same strings are equal.
   */
  lemma {:induction false} SortedUnique(a: seq<string>, b: seq<string>)
    requires StrictlySorted(a) && StrictlySorted(b)
    requires forall y :: y in a <==> y in b
    ensures a == b
  {
    LexStrictTotalOrder();
    if |a| > 0 {
      assert a[0] in b;
    }
    if |b| > 0 {
      assert b[0] in a;
    }
    if |a| > 0 && |b| > 0 {
      assert a[0] == b[0];
      forall y
        ensures y in a[1..] <==> y in b[1..]
      {
        TailMembers(a, y);
        TailMembers(b, y);
      }
      SortedUnique(a[1..], b[1..]);
      assert a == [a[0]] + a[1..] && b == [b[0]] + b[1..];
    }
  }

  /** The tail of a strictly sorted sequence holds its elements other than the head. */
  lemma TailMembers(s: seq<string>, y: string)
    requires |s| > 0 && StrictlySorted(s)
    ensures y in s[1..] <==> y in s && y != s[0]
  {
    LexStrictTotalOrder();
    if y in s[1..] {
      var k :| 0 <= k < |s[1..]| && s[1..][k] == y;
      assert LexLess(s[0], s[k + 1]);
    }
    if y in s && y != s[0] {
      var k :| 0 <= k < |s| && s[k] == y;
      assert s[1..][k - 1] == y;
    }
  }
}

=== FILE: seqs.dfy ===
/**
 Generic sequence operations shared by both front ends: the order-preserving
 `filter` of JavaScript arrays, the subsequence relation it establishes, and
 the append-or-remove toggle used by every checkbox list in the catalog.
 */
module Seqs {

  /** `a` can be obtained from `b` by deleting elements, keeping the rest in order. */
  predicate IsSubsequence<T(==)>(a: seq<T>, b: seq<T>)
  {
    if |a| == 0 then true
    else if |b| == 0 then false
    else if a[0] == b[0] then IsSubsequence(a[1..], b[1..])
    else IsSubsequence(a, b[1..])
  }

  /** A sequence of length one is the singleton of its element. */
  lemma Singleton<T>(xs: seq<T>)
    requires |xs| == 1
    ensures xs == [xs[0]]
  {
  }

  /** Every sequence is a subsequence of itself. */
  lemma {:induction false} SubsequenceReflexive<T>(s: seq<T>)
    ensures IsSubsequence(s, s)
  {
    if |s| > 0 {
      SubsequenceReflexive(s[1..]);
    }
  }

  /**
   The JavaScript `Array.prototype.filter`: the elements of `s` that satisfy `p`,
   in their original order and with their multiplicities.
   */
  function Filter<T(==,!new)>(s: seq<T>, p: T -> bool): (r: seq<T>)
    ensures IsSubsequence(r, s)
    ensures forall x :: x in r <==> x in s && p(x)
    ensures forall x :: multiset(r)[x] == if p(x) then multiset(s)[x] else 0
  {
    if |s| == 0 then []
    else
      var rest := Filter(s[1..], p);
      assert s == [s[0]] + s[1..];
      if p(s[0]) then
        assert ([s[0]] + rest)[1..] == rest;
        [s[0]] + rest
      else rest
  }

  /** `Array.prototype.map`: `f` applied to every element, in place. */
  function Map<T, U>(s: seq<T>, f: T -> U): (r: seq<U>)
    ensures |r| == |s|
    ensures forall i :: 0 <= i < |s| ==> r[i] == f(s[i])
  {
    seq(|s|, i requires 0 <= i < |s| => f(s[i]))
  }

  /** Mapping a list with a known head maps the head on its own. */
  lemma MapCons<T, U>(x: T, rest: seq<T>, f: T -> U)
    ensures Map([x] + rest, f) == [f(x)] + Map(rest, f)
  {
    var a, b := Map([x] + rest, f), [f(x)] + Map(rest, f);
    forall i | 0 <= i < |a|
      ensures a[i] == b[i]
    {
      if i > 0 {
        assert ([x] + rest)[i] == rest[i - 1];
      }
    }
    assert a == b;
  }

  /** Lists whose heads map alike and whose tails agree map alike. */
  lemma MapSameTail<T, U>(p: seq<T>, q: seq<T>, f: T -> U)
    requires |p| == |q| > 0 && f(p[0]) == f(q[0]) && p[1..] == q[1..]
    ensures Map(p, f) == Map(q, f)
  {
    var a, b := Map(p, f), Map(q, f);
    forall i | 0 <= i < |a|
      ensures a[i] == b[i]
    {
      if i > 0 {
        assert p[i] == p[1..][i - 1] == q[i];
      }
    }
    assert a == b;
  }

  /** Filtering with a predicate that every element satisfies is the identity. */
  lemma {:induction false} FilterKeepsAll<T(!new)>(s: seq<T>, p: T -> bool)
    requires forall x :: x in s ==> p(x)
    ensures Filter(s, p) == s
  {
    if |s| > 0 {
      FilterKeepsAll(s[1..], p);
    }
  }

  /** Filtering with a predicate that no element satisfies yields the empty sequence. */
  lemma {:induction false} FilterDropsAll<T(!new)>(s: seq<T>, p: T -> bool)
    requires forall x :: x in s ==> !p(x)
    ensures Filter(s, p) == []
  {
    if |s| > 0 {
      FilterDropsAll(s[1..], p);
    }
  }

  /** The complement of a predicate. */
  function Not<T>(p: T -> bool): T -> bool
  {
    x => !p(x)
  }

  /**
   Splitting a sequence by a predicate and concatenating the two halves is a
   permutation of the sequence.
   */
  lemma FilterPartition<T(!new)>(s: seq<T>, p: T -> bool)
    ensures multiset(Filter(s, p) + Filter(s, Not(p))) == multiset(s)
  {
    var kept, dropped := Filter(s, p), Filter(s, Not(p));
    forall x
      ensures multiset(kept + dropped)[x] == multiset(s)[x]
    {
      assert Not(p)(x) == !p(x);
    }
    assert multiset(kept + dropped) == multiset(s);
  }

  /** One step of `Filter`: the head is kept exactly when it passes. */
  lemma FilterUnfold<T(!new)>(s: seq<T>, p: T -> bool)
    requires |s| > 0
    ensures Filter(s, p) == if p(s[0]) then [s[0]] + Filter(s[1..], p) else Filter(s[1..], p)
  {
  }

  /**
   When every element satisfying `p` precedes every element that does not,
   the two halves of the partition put back together give the sequence itself.
   */
  lemma {:induction false} FilterPartitionOrdered<T(!new)>(s: seq<T>, p: T -> bool)
    requires forall i, j :: 0 <= i < j < |s| && p(s[j]) ==> p(s[i])
    ensures Filter(s, p) + Filter(s, Not(p)) == s
  {
    if |s| > 0 {
      if p(s[0]) {
        var t := s[1..];
        OrderedTail(s, p);
        FilterPartitionOrdered(t, p);
        FilterCons(s, p);
      } else {
        OrderedNoneAfterFailure(s, p);
        FilterDropsAll(s, p);
        FilterKeepsAll(s, Not(p));
      }
    }
  }

  /** How `Filter` treats an accepted head. */
  lemma FilterCons<T(!new)>(s: seq<T>, p: T -> bool)
    requires |s| > 0 && p(s[0])
    requires Filter(s[1..], p) + Filter(s[1..], Not(p)) == s[1..]
    ensures Filter(s, p) + Filter(s, Not(p)) == s
  {
    var a, b := Filter(s[1..], p), Filter(s[1..], Not(p));
    FilterUnfold(s, p);
    FilterUnfold(s, Not(p));
    assert !Not(p)(s[0]);
    ConsSplit(s, Filter(s, p), Filter(s, Not(p)), a, b);
  }

  /** A head followed by the two parts of the tail rebuilds the sequence. */
  lemma ConsSplit<T>(s: seq<T>, kept: seq<T>, dropped: seq<T>, a: seq<T>, b: seq<T>)
    requires |s| > 0 && kept == [s[0]] + a && dropped == b && a + b == s[1..]
    ensures kept + dropped == s
  {
    assert kept + dropped == [s[0]] + (a + b);
    assert s == [s[0]] + s[1..];
  }

  /** The ordering premise of `FilterPartitionOrdered` passes to the tail. */
  lemma OrderedTail<T>(s: seq<T>, p: T -> bool)
    requires |s| > 0
    requires forall i, j :: 0 <= i < j < |s| && p(s[j]) ==> p(s[i])
    ensures forall i, j :: 0 <= i < j < |s| - 1 && p(s[1..][j]) ==> p(s[1..][i])
  {
    forall i, j | 0 <= i < j < |s| - 1 && p(s[1..][j])
      ensures p(s[1..][i])
    {
      assert s[1..][i] == s[i + 1] && s[1..][j] == s[j + 1];
    }
  }

  /** Under the ordering premise, once the head fails `p` every element fails it. */
  lemma OrderedNoneAfterFailure<T>(s: seq<T>, p: T -> bool)
    requires |s| > 0 && !p(s[0])
    requires forall i, j :: 0 <= i < j < |s| && p(s[j]) ==> p(s[i])
    ensures forall x :: x in s ==> !p(x)
  {
    forall x | x in s
      ensures !p(x)
    {
      var j :| 0 <= j < |s| && s[j] == x;
    }
  }

  /**
   Filtering twice is filtering once by the conjunction of both predicates.
   */
  lemma {:induction false} FilterFilter<T(!new)>(s: seq<T>, p: T -> bool, q: T -> bool)
    ensures Filter(Filter(s, p), q) == Filter(s, x => p(x) && q(x))
  {
    if |s| > 0 {
      FilterFilter(s[1..], p, q);
    }
  }

  /** Every occurrence of `x` removed, the other elements kept in order. */
  function RemoveAll<T(==,!new)>(s: seq<T>, x: T): (r: seq<T>)
    ensures x !in r
    ensures IsSubsequence(r, s)
    ensures forall y :: y != x ==> multiset(r)[y] == multiset(s)[y]
  {
    Filter(s, v => v != x)
  }

  /**
   The checkbox handler: checking appends the option at the end, unchecking
   removes every occurrence of it and keeps the others in order.
   */
  function Toggle<T(==,!new)>(s: seq<T>, x: T, checked: bool): (r: seq<T>)
    ensures checked ==> |r| == |s| + 1 && r[..|s|] == s && r[|s|] == x
    ensures !checked ==> x !in r && IsSubsequence(r, s)
    ensures !checked ==> forall y :: y != x ==> multiset(r)[y] == multiset(s)[y]
    ensures x in r <==> checked
  {
    if checked then s + [x] else RemoveAll(s, x)
  }
}

=== FILE: text.dfy ===
/**
 The string primitives of JavaScript that the catalog logic relies on:
 `trim`, `split` on a single character, `join`, and `includes`.
 Strings are sequences of Unicode scalar values.
 */
module Text {

  import opened Seqs

  /**
   The characters `String.prototype.trim` strips: the WhiteSpace and
   LineTerminator code points of ECMAScript (tab, vertical tab, form feed,
   space, no-break space, byte order mark, the space separators of category
   Zs, line feed, carriage return, line and paragraph separators).
   */
  predicate IsWhitespace(c: char)
  {
    c in {
      '\t', '\n', '\U{000B}', '\U{000C}', '\r', ' ', '\U{00A0}', '\U{1680}',
      '\U{2000}', '\U{2001}', '\U{2002}', '\U{2003}', '\U{2004}', '\U{2005}',
      '\U{2006}', '\U{2007}', '\U{2008}', '\U{2009}', '\U{200A}',
      '\U{2028}', '\U{2029}', '\U{202F}', '\U{205F}', '\U{3000}', '\U{FEFF}'
    }
  }

  /** Every character is whitespace (the empty string included). */
  predicate IsBlank(s: string)
  {
    forall i :: 0 <= i < |s| ==> IsWhitespace(s[i])
  }

  /** No whitespace at either end. */
  predicate IsTrimmed(s: string)
  {
    |s| == 0 || (!IsWhitespace(s[0]) && !IsWhitespace(s[|s| - 1]))
  }

  /** Leading whitespace removed: what is left is a suffix after a blank prefix. */
  function TrimStart(s: string): (r: string)
    ensures |r| <= |s| && r == s[|s| - |r|..]
    ensures IsBlank(s[..|s| - |r|])
    ensures |r| == 0 || !IsWhitespace(r[0])
  {
    if |s| > 0 && IsWhitespace(s[0]) then
      var r := TrimStart(s[1..]);
      assert s[..|s| - |r|] == [s[0]] + s[1..][..|s| - 1 - |r|];
      r
    else
      s
  }

  /** Trailing whitespace removed: what is left is a prefix before a blank suffix. */
  function TrimEnd(s: string): (r: string)
    ensures |r| <= |s| && r == s[..|r|]
    ensures IsBlank(s[|r|..])
    ensures |r| == 0 || !IsWhitespace(r[|r| - 1])
  {
    if |s| > 0 && IsWhitespace(s[|s| - 1]) then
      var r := TrimEnd(s[..|s| - 1]);
      assert s[|r|..] == s[..|s| - 1][|r|..] + [s[|s| - 1]];
      r
    else
      s
  }

  /**
   `String.prototype.trim`. The result has no whitespace at either end, is
   empty exactly when the input is blank, and leaves an already trimmed
   string alone.
   */
  function Trim(s: string): (r: string)
    ensures exists i, j :: 0 <= i <= j <= |s| && r == s[i..j] && IsBlank(s[..i]) && IsBlank(s[j..])
    ensures IsTrimmed(r)
    ensures r == "" <==> IsBlank(s)
    ensures r == s <==> IsTrimmed(s)
  {
    var t := TrimStart(s);
    var r := TrimEnd(t);
    ShapeOfTrim(s, t, r);
    CoreOfTrim(s, t, r);
    r
  }

  /** Trimming the start and then the end leaves no whitespace at either end, and only a trimmed input survives whole. */
  lemma ShapeOfTrim(s: string, t: string, r: string)
    requires |t| <= |s| && t == s[|s| - |t|..] && IsBlank(s[..|s| - |t|])
    requires |t| == 0 || !IsWhitespace(t[0])
    requires |r| <= |t| && r == t[..|r|] && IsBlank(t[|r|..])
    requires |r| == 0 || !IsWhitespace(r[|r| - 1])
    ensures IsTrimmed(r)
    ensures r == "" <==> IsBlank(s)
    ensures r == s <==> IsTrimmed(s)
  {
    assert |r| > 0 ==> r[0] == t[0];
    assert |t| > 0 ==> s[|s| - |t|] == t[0];
    assert t == "" ==> s[..|s| - |t|] == s;
    assert IsTrimmed(s) ==> r == s;
  }

  /** The slice left by trimming both ends lies between a blank prefix and a blank suffix. */
  lemma CoreOfTrim(s: string, t: string, r: string)
    requires |t| <= |s| && t == s[|s| - |t|..] && IsBlank(s[..|s| - |t|])
    requires |r| <= |t| && r == t[..|r|] && IsBlank(t[|r|..])
    ensures exists i, j :: 0 <= i <= j <= |s| && r == s[i..j] && IsBlank(s[..i]) && IsBlank(s[j..])
  {
    var i := |s| - |t|;
    var j := i + |r|;
    assert s[j..] == t[|r|..];
    assert r == s[i..j];
  }

  /** Trimming introduces no character that was not there. */
  lemma TrimKeepsAbsent(s: string, c: char)
    requires c !in s
    ensures c !in Trim(s)
  {
    var t := TrimStart(s);
    assert c !in t;
  }

  /** Leading whitespace never survives `trim`. */
  lemma {:induction false} TrimStartBlankPrefix(w: string, u: string)
    requires IsBlank(w)
    ensures TrimStart(w + u) == TrimStart(u)
  {
    if |w| > 0 {
      assert (w + u)[1..] == w[1..] + u;
      TrimStartBlankPrefix(w[1..], u);
    } else {
      assert w + u == u;
    }
  }

  /** `trim` ignores a blank prefix. */
  lemma TrimBlankPrefix(w: string, u: string)
    requires IsBlank(w)
    ensures Trim(w + u) == Trim(u)
  {
    TrimStartBlankPrefix(w, u);
  }

  /** `Array.prototype.map(s => s.trim())`. */
  function TrimAll(xs: seq<string>): (r: seq<string>)
    ensures |r| == |xs|
    ensures forall i :: 0 <= i < |xs| ==> r[i] == Trim(xs[i])
  {
    Map(xs, Trim)
  }

  /** Trimming every piece of a list with a known head: the head is trimmed on its own. */
  lemma TrimAllCons(x: string, rest: seq<string>)
    ensures TrimAll([x] + rest) == [Trim(x)] + TrimAll(rest)
  {
    MapCons(x, rest, Trim);
  }

  /** Trimmed pieces of a split are trimmed and free of the separator. */
  lemma TrimmedPieces(text: string, sep: char)
    ensures forall t :: t in TrimAll(Split(text, sep)) ==> IsTrimmed(t) && sep !in t
  {
    var pieces := Split(text, sep);
    var trimmed := TrimAll(pieces);
    forall i | 0 <= i < |trimmed|
      ensures IsTrimmed(trimmed[i]) && sep !in trimmed[i]
    {
      TrimKeepsAbsent(pieces[i], sep);
    }
  }

  /**
   `Array.prototype.join(sep)`: the elements with `sep` between neighbours;
   the empty array gives the empty string.
   */
  function Join(xs: seq<string>, sep: string): string
  {
    if |xs| == 0 then ""
    else if |xs| == 1 then xs[0]
    else xs[0] + sep + Join(xs[1..], sep)
  }

  /** The joined text is empty only if every element is empty and no separator was placed. */
  lemma {:induction false} JoinEmpty(xs: seq<string>, sep: string)
    requires |sep| > 0
    ensures Join(xs, sep) == "" <==> |xs| == 0 || (|xs| == 1 && xs[0] == "")
  {
    if |xs| > 1 {
      assert |Join(xs, sep)| >= |sep|;
    }
  }

  /**
   Joining non-empty trimmed strings gives a trimmed string: its first
   character is the first element's and its last the last element's.
   */
  lemma {:induction false} JoinTrimmed(xs: seq<string>, sep: string)
    requires forall i :: 0 <= i < |xs| ==> xs[i] != "" && IsTrimmed(xs[i])
    ensures IsTrimmed(Join(xs, sep))
  {
    if |xs| > 1 {
      JoinTrimmed(xs[1..], sep);
      var rest := Join(xs[1..], sep);
      JoinNonEmpty(xs[1..], sep);
      var j := xs[0] + sep + rest;
      assert j[0] == xs[0][0];
      assert j[|j| - 1] == rest[|rest| - 1];
    }
  }

  /** Joining at least one non-empty element gives a non-empty string. */
  lemma {:induction false} JoinNonEmpty(xs: seq<string>, sep: string)
    requires |xs| > 0 && forall i :: 0 <= i < |xs| ==> xs[i] != ""
    ensures Join(xs, sep) != ""
  {
  }

  /**
   `String.prototype.split` on a one-character separator: the maximal
   separator-free pieces, in order. There is always at least one piece
   (the empty string splits into `[""]`), and there is one piece more than
   there are separators.
   */
  function Split(s: string, sep: char): (r: seq<string>)
    ensures |r| >= 1
    ensures forall i :: 0 <= i < |r| ==> sep !in r[i]
    ensures sep !in s ==> r == [s]
  {
    if |s| == 0 then [""]
    else
      var rest := Split(s[1..], sep);
      if s[0] == sep then
        [""] + rest
      else
        assert sep !in s ==> rest == [s[1..]];
        assert s == [s[0]] + s[1..];
        [[s[0]] + rest[0]] + rest[1..]
  }

  /** Joining the pieces back with the separator rebuilds the input. */
  lemma {:induction false} JoinSplit(s: string, sep: char)
    ensures Join(Split(s, sep), [sep]) == s
  {
    if |s| > 0 {
      JoinSplit(s[1..], sep);
      var rest := Split(s[1..], sep);
      assert s == [s[0]] + s[1..];
      if s[0] == sep {
        assert Split(s, sep) == [""] + rest;
        assert ([""] + rest)[1..] == rest;
      } else {
        var r := [[s[0]] + rest[0]] + rest[1..];
        assert Split(s, sep) == r;
        assert r[1..] == rest[1..];
        if |rest| > 1 {
          assert Join(rest, [sep]) == rest[0] + [sep] + Join(rest[1..], [sep]);
        }
      }
    }
  }

  /** A separator-free prefix is glued onto the first piece. */
  lemma {:induction false} SplitPrefix(a: string, t: string, sep: char)
    requires sep !in a
    ensures Split(a + t, sep) == [a + Split(t, sep)[0]] + Split(t, sep)[1..]
  {
    if |a| > 0 {
      var tail := Split(t, sep);
      SplitPrefix(a[1..], t, sep);
      var rest := Split(a[1..] + t, sep);
      assert rest[0] == a[1..] + tail[0] && rest[1..] == tail[1..];
      assert (a + t)[0] == a[0] != sep;
      assert (a + t)[1..] == a[1..] + t;
      assert Split(a + t, sep) == [[a[0]] + rest[0]] + rest[1..];
      assert [a[0]] + (a[1..] + tail[0]) == a + tail[0];
    } else {
      assert a + t == t;
      assert a + Split(t, sep)[0] == Split(t, sep)[0];
      assert Split(t, sep) == [Split(t, sep)[0]] + Split(t, sep)[1..];
    }
  }

  /** A leading separator contributes an empty first piece. */
  lemma SplitSeparatorFirst(t: string, sep: char)
    ensures Split([sep] + t, sep) == [""] + Split(t, sep)
  {
    assert ([sep] + t)[1..] == t;
  }

  /**
   Splitting is the inverse of joining with the separator, as long as no
   element contains the separator.
   */
  lemma {:induction false} SplitJoin(xs: seq<string>, sep: char)
    requires |xs| >= 1
    requires forall i :: 0 <= i < |xs| ==> sep !in xs[i]
    ensures Split(Join(xs, [sep]), sep) == xs
  {
    if |xs| > 1 {
      var rest := Join(xs[1..], [sep]);
      SplitJoin(xs[1..], sep);
      SplitSeparatorFirst(rest, sep);
      var after := Split([sep] + rest, sep);
      assert after == [""] + xs[1..];
      SplitPrefix(xs[0], [sep] + rest, sep);
      calc {
        Split(Join(xs, [sep]), sep);
        { assert Join(xs, [sep]) == xs[0] + ([sep] + rest); }
        Split(xs[0] + ([sep] + rest), sep);
        [xs[0] + after[0]] + after[1..];
        { assert xs[0] + "" == xs[0]; assert after[1..] == xs[1..]; }
        [xs[0]] + xs[1..];
        xs;
      }
    } else {
      Singleton(xs);
      assert Split(xs[0], sep) == [xs[0]];
    }
  }

  /**
   Joining with ", " and splitting on "," leaves a space in front of every
   piece but the first; trimming every piece undoes it, so the trimmed
   pieces are the original elements when those are trimmed, non-empty and
   comma-free.
   */
  lemma {:induction false} TrimAllSplitJoinCommaSpace(xs: seq<string>)
    requires |xs| >= 1
    requires forall i :: 0 <= i < |xs| ==> ',' !in xs[i] && xs[i] != "" && IsTrimmed(xs[i])
    ensures TrimAll(Split(Join(xs, ", "), ',')) == xs
  {
    if |xs| > 1 {
      var rest := Join(xs[1..], ", ");
      calc {
        TrimAll(Split(Join(xs, ", "), ','));
        { assert Join(xs, ", ") == xs[0] + ", " + rest; }
        TrimAll(Split(xs[0] + ", " + rest, ','));
        { TrimAllCommaSpaceStep(xs[0], rest); }
        [xs[0]] + TrimAll(Split(rest, ','));
        { TrimAllSplitJoinCommaSpace(xs[1..]); }
        [xs[0]] + xs[1..];
        xs;
      }
    } else {
      var x := xs[0];
      assert xs == [x] by { Singleton(xs); }
      assert Split(x, ',') == [x];
      assert TrimAll([x]) == [x];
    }
  }

  /** One step of the comma-space round trip: the head comes back as the first trimmed piece. */
  lemma TrimAllCommaSpaceStep(x: string, rest: string)
    requires ',' !in x && IsTrimmed(x)
    ensures TrimAll(Split(x + ", " + rest, ',')) == [x] + TrimAll(Split(rest, ','))
  {
    TrimAllSpacedPieces(rest);
    SplitCommaSpace(x, rest);
    var spaced := Split(" " + rest, ',');
    calc {
      TrimAll(Split(x + ", " + rest, ','));
      TrimAll([x] + spaced);
      { TrimAllCons(x, spaced); }
      [Trim(x)] + TrimAll(spaced);
    }
  }

  /** A comma followed by a space after a comma-free head: the head is the first piece. */
  lemma SplitCommaSpace(a: string, rest: string)
    requires ',' !in a
    ensures Split(a + ", " + rest, ',') == [a] + Split(" " + rest, ',')
  {
    var spaced := " " + rest;
    SplitSeparatorFirst(spaced, ',');
    assert Split([','] + spaced, ',') == [""] + Split(spaced, ',');
    SplitPrefix(a, [','] + spaced, ',');
    assert a + ", " + rest == a + ([','] + spaced);
    assert a + "" == a;
  }

  /** A space in front of the text only changes the first piece, and trimming hides it. */
  lemma TrimAllSpacedPieces(rest: string)
    ensures TrimAll(Split(" " + rest, ',')) == TrimAll(Split(rest, ','))
  {
    var pieces := Split(rest, ',');
    SplitPrefix(" ", rest, ',');
    TrimBlankPrefix(" ", pieces[0]);
    var spaced := Split(" " + rest, ',');
    assert spaced[0] == " " + pieces[0] && spaced[1..] == pieces[1..];
    MapSameTail(spaced, pieces, Trim);
  }

  /** JavaScript `s.includes(t)`: `t` occurs in `s` as a contiguous block. */
  predicate Contains(s: string, t: string)
    decreases |s|
  {
    |t| <= |s| && (s[..|t|] == t || (|s| > 0 && Contains(s[1..], t)))
  }

  /** `t` occurs in `s` starting at offset `i`. */
  predicate OccursAt(s: string, t: string, i: int)
  {
    0 <= i <= |s| - |t| && s[i..i + |t|] == t
  }

  /** `Contains` holds exactly when `t` sits at some offset of `s`. */
  lemma {:induction false} ContainsIff(s: string, t: string)
    ensures Contains(s, t) <==> exists i :: OccursAt(s, t, i)
    decreases |s|
  {
    if |t| > |s| {
      assert forall i :: !OccursAt(s, t, i);
    } else if s[..|t|] == t {
      assert OccursAt(s, t, 0);
    } else {
      ContainsIff(s[1..], t);
      ShiftOccurrence(s, t);
    }
  }

  /**
   When `t` is not a prefix of a non-empty `s`, its occurrences in `s` are
   those in `s[1..]`, one position further on.
   */
  lemma ShiftOccurrence(s: string, t: string)
    requires 0 < |s| && |t| <= |s| && s[..|t|] != t
    ensures (exists i :: OccursAt(s, t, i)) <==> (exists i :: OccursAt(s[1..], t, i))
  {
    if exists i :: OccursAt(s, t, i) {
      var i :| OccursAt(s, t, i);
      assert i != 0;
      assert s[1..][i - 1..i - 1 + |t|] == s[i..i + |t|];
      assert OccursAt(s[1..], t, i - 1);
    }
    if exists i :: OccursAt(s[1..], t, i) {
      var i :| OccursAt(s[1..], t, i);
      assert s[1..][i..i + |t|] == s[i + 1..i + 1 + |t|];
      assert OccursAt(s, t, i + 1);
    }
  }
}
